=== FILE: README.md ===
# reporter.py in Dafny

A model of the pure logic inside `reporter.py`, the script that summarises a
Grafana dashboard: it reads the dashboard's Prometheus queries, runs each of
them, writes the results into a Markdown report, has a language model turn
that into a narrative, and posts the narrative to a Discord webhook.

Every network exchange becomes an input:
- the reply of the Grafana dashboard API (`Extraction.Response`);
- what Prometheus answered for each query (`Report.Answer`);
- what the language model answered (`Narrative.ModelReply`).

What is left is four total, deterministic pieces:

- **Query extraction** (`extraction.dfy`, `substitution.dfy`, `json.dfy`).
  - The configuration guard comes first.
  - The walk over `dashboard.panels[].targets[]` keeps a panel only if it has
    `targets` and a datasource that is an explicit `null` or a dict of type
    `"prometheus"`.
  - It keeps a target only if it is not hidden and has a truthy `expr`.
  - Each kept query has `$__range` replaced by `24h` and then `$__interval`
    by `5m`.
  - A panel without a title is called `제목 없는 패널`.
  - The dashboard document is a `Json` value, with Python's `dict.get`, `in`,
    truthiness and iteration spelled out.
  - An exception the script does not catch is an `Err` result; the first one
    raised wins.
- **Label strings** (`labels.dfy`). Every label except `__name__` is written as
  `k="v"`, and the entries are joined with `", "`; the result is `Total` when
  no label is left.
- **Report assembly** (`report.dfy`). An empty query list gives no report.
  Otherwise the report is a header followed by one `### title` section per
  query, in order. Each section holds:
  - one bullet per series; or
  - one of the fixed markers: no data, Prometheus client error, or any other
    error.

  A failing query never stops the others.
- **Delivery** (`chunking.dfy`, `narrative.dfy`).
  - The two guards of the narrative step, then the top-level flow.
  - The narrative is cut into consecutive slices of at most 1990 characters
    for Discord.

`str.replace` is modelled as Python's scan: left to right, non-overlapping.
`"".join` and `sep.join` live in `text.dfy`.

A panel with no `datasource` key does not qualify: the code
(reporter.py:81-82) defaults an absent datasource to `{}`, a dict with no
`type`, so such a panel contributes nothing. `Extraction.SingleTargetPanel`
states both sides:
- a one-target panel with a Prometheus datasource yields its query;
- the same panel without a datasource yields nothing.

Some definitions carry no contract of their own. The rows below state their
properties through the members that use them:
- `Substitution.Replace` is `str.replace` (reporter.py:89). Its rows are the
  `Replace…` lemmas.
- `Extraction.IsPrometheusPanel` is the datasource test (reporter.py:81-82).
  See `Extraction.DatasourceTest` and `Extraction.PanelItems`.
- `Extraction.PanelTitle` is `panel.get('title', '제목 없는 패널')`
  (reporter.py:80). See `Extraction.PanelItems` and
  `Extraction.SingleTargetPanel`.
- `Report.SeriesText` is the loop over one query's series
  (reporter.py:127-137). See `Report.SeriesUpToFailure` and
  `Report.AppendAnswer`.
- `Labels.Entry` and `Labels.Entries` are the `f'{k}="{v}"'` of each kept
  label (reporter.py:130). See `Labels.LabelStringSingle`.
- `Chunking.Slice` and `Chunking.ChunkCount` are one `s[i:i + 1990]` and
  the number of slices (reporter.py:192). See
  `Chunking.ChunksAreComprehension`.
- `Substitution.Split` is `str.split` for a pattern whose first character
  occurs nowhere else in it. The script does not call it; it is the
  reference that `Substitution.SubstituteAll` is stated against.
- `Report.SeriesLine` is one series' bullet (reporter.py:135). See
  `Report.SeriesUpToFailure` and `Report.AppendAnswer`.
- `Report.Section` is one query's section: the title line
  (reporter.py:117), then the query's outcome. See `Report.AppendSection`.
- `Report.Header` is the report's opening (reporter.py:112). See
  `Report.BuildReport` and `Report.HeaderNonEmpty`.
- `Report.TitleText` is the f-string rendering of a panel title
  (reporter.py:117). See `Report.AppendSection`, and the line about it under
  "Left out".

## Model

| member | source | states |
|---|---|---|
| Substitution.Substitute | reporter.py:89 | after both replacements the query contains neither `$__range` nor `$__interval` |
| Substitution.ReplaceUnchanged | reporter.py:89 | `str.replace` returns a string that lacks the pattern unchanged |
| Substitution.ReplaceAvoids | reporter.py:89 | replacing a pattern by a non-empty text sharing no character with `q` leaves no `q`, when `q` is the pattern or absent from the input; no new placeholder can form across the replacement |
| Substitution.ReplaceAcross | reporter.py:89 | text in front of the first occurrence of the pattern is kept, the occurrence becomes the replacement, and the scan resumes after it |
| Substitution.ReplaceJoin | reporter.py:89 | every character outside the occurrences survives: a text that is pieces separated by the pattern becomes the same pieces separated by the replacement |
| Substitution.PlaceholderAlphabets | reporter.py:89 | neither `24h` nor `5m` shares a character with `$__range`, `5m` shares none with `$__interval`, and both placeholders start with a character found nowhere else in them |
| Substitution.IntervalHidesNoRange | reporter.py:89 | an `$__interval` between texts without `$__range` creates no `$__range`, so the second replacement works on what the first left |
| Substitution.SubstituteUnchanged | reporter.py:89 | a query with neither placeholder is passed through as written |
| Substitution.SubstituteOne | reporter.py:89 | one `$__range` between placeholder-free texts becomes `24h` and nothing else changes |
| Substitution.SubstituteBoth | reporter.py:89 | a query with one `$__range` followed later by one `$__interval` gets `24h` and `5m` in their places and keeps every other character |
| Substitution.SubstituteBothReversed | reporter.py:89 | a query with one `$__interval` followed later by one `$__range` gets `5m` and `24h` in their places and keeps every other character |
| Substitution.ReplaceSplits | reporter.py:89 | no occurrence of the pattern spans a separator that shares no character with it, so the text on each side is replaced on its own |
| Substitution.ReplaceOverJoin | reporter.py:89 | replacing in pieces joined by such a separator replaces in each piece and keeps the separators |
| Substitution.SubstituteJoin | reporter.py:89 | a query that is `$__range`-free pieces joined by `$__range` becomes those pieces, each with its `$__interval`s replaced by `5m`, joined by `24h`: the `24h` written by the first replacement never joins a match of the second |
| Substitution.SubstituteAll | reporter.py:89 | for every query: split at `$__range` and each piece at `$__interval`, the result is each piece's parts joined by `5m`, and those joined by `24h`, so nothing but the placeholders changes |
| Substitution.SubstituteExample | reporter.py:89 | `sum(rate($__range))` becomes `sum(rate(24h))` |
| PyJson.LookupDistinct | reporter.py:77-88 | `d.get(key)` on a decoded dict, whose keys are distinct, finds the value bound to the key, and nothing when the key is not bound |
| PyJson.Elements | reporter.py:79-85 | `for x in v` raises TypeError exactly on null, booleans and numbers; lists give their items; a string gives one one-character string per character, a dict one string per key, in order, so an empty string or dict gives nothing |
| Extraction.DashboardUrl | reporter.py:51-63 | a request URL is formed exactly when the Grafana URL, API key, public domain and dashboard uid are all non-empty |
| Extraction.NoRequestWithoutConfig | reporter.py:51-53 | with any of the four settings missing or empty, no URL is formed and the result is `[]` whatever the server would answer |
| Extraction.GetAllQueries | reporter.py:49-101 | the guard, a network failure, a non-200 status and a non-JSON body each give `[]`; a 200 JSON reply gives the walk of the document; a non-empty result implies a complete configuration; every query is placeholder-free |
| Extraction.DashboardItems | reporter.py:77-79 | a document that is not a dict raises AttributeError; otherwise a `dashboard` that is not a dict raises AttributeError, a `panels` that is not iterable raises TypeError, and else the result is the walk of `dashboard.panels`; every query found is placeholder-free |
| Extraction.DatasourceTest | reporter.py:81-82 | an absent datasource fails the test, an explicit null passes it, a dict passes it exactly when its `type` is `"prometheus"`, and a string, number, list or boolean fails it |
| Extraction.PanelItems | reporter.py:79-91 | a non-dict panel raises; a panel gives nothing unless it has `targets` and passes the datasource test, so in particular without a datasource, with a string datasource or with a dict of another type (such as Loki); an explicit null datasource qualifies; a qualifying panel gives its targets' queries under its own title |
| Extraction.TargetItem | reporter.py:86-91 | a non-dict target raises; a hidden target or one without a truthy `expr` gives nothing; otherwise a string `expr` gives exactly one item with the panel's title and the substituted query, and any other `expr` raises AttributeError |
| Extraction.TargetsItems | reporter.py:85-91 | at most one item per target, each under the panel's title and placeholder-free |
| Extraction.PanelsItems | reporter.py:79-91 | every query found in the panels is placeholder-free |
| Extraction.TargetsAppend | reporter.py:85-91 | targets are visited in order: the targets of `a + b` give the items of `a`, then those of `b`, and the first exception wins; a one-target list gives exactly that target's items |
| Extraction.PanelsAppend | reporter.py:79-91 | panels are visited in order: the panels of `a + b` give the items of `a`, then those of `b`; a one-panel list gives exactly that panel's items |
| Extraction.SingleTargetPanel | reporter.py:79-91 | a Prometheus panel with one visible target yields exactly that query, substituted and under the panel's title; the same panel without a datasource yields nothing |
| Labels.Shown | reporter.py:130 | the kept labels are labels of the series, none of them `__name__`, and there are none exactly when every label is `__name__` |
| Labels.LabelString | reporter.py:128-132 | the label string is `Total` exactly when there is no label other than `__name__` |
| Labels.JoinedIsNotTotal | reporter.py:130-132 | joined entries of at least one label are neither empty nor `Total` |
| Labels.ShownAppend | reporter.py:130 | dropping `__name__` keeps the labels' order |
| Labels.LabelStringSingle | reporter.py:128-132 | a single label renders as `k="v"`, or as `Total` when it is `__name__` |
| Labels.LabelStringAppend | reporter.py:128-132 | the labels `a + b` render as the rendering of `a`, `", "`, then that of `b`, where a part that only has `__name__` contributes nothing |
| Report.HeaderNonEmpty | reporter.py:112 | a report starts with its header, so it is never empty |
| Report.AnswerText | reporter.py:123-144 | an empty answer gives the no-data marker, a client exception the query-error marker, any other exception the unknown-error marker |
| Report.AnswerEndsBlank | reporter.py:123-144 | every outcome, marker or series, ends with a blank line before the next section |
| Report.SeriesUpToFailure | reporter.py:127-144 | bullets of the series before a failing one stay in the report, followed by the unknown-error marker; later series are not rendered; with no failure a blank line follows the bullets |
| Report.AppendAnswer | reporter.py:119-144 | the `try` for one query appends exactly that query's outcome text |
| Report.AppendSection | reporter.py:114-144 | one loop iteration appends the `### title` line and the outcome of that query |
| Report.AppendSections | reporter.py:114-144 | the loop appends every query's section, in query order |
| Report.BuildReport | reporter.py:108-146 | no report exactly when there are no queries; otherwise the header naming the dashboard followed by all sections in order |
| Report.SectionsAppend | reporter.py:114-144 | the sections of consecutive query lists follow one another |
| Report.SectionIsolated | reporter.py:114-144 | query `i`'s section depends only on its own outcome and sits between the sections before and after it, whatever those outcomes were |
| Report.GetMetrics | reporter.py:104-146 | an uncaught walk exception propagates; no queries gives None; otherwise the dashboard uid is set and the text is the header plus one section per extracted query, each paired with its own answer |
| Chunking.SlicesFrom | reporter.py:192 | slices from a start position are non-empty, at most 1990 long, all but the last exactly 1990, `ceil(n / 1990)` of them, and together they give back the text from that position |
| Chunking.Chunks | reporter.py:192 | the chunks glued in order give back the message; each is non-empty and at most 1990 long; all but the last are exactly 1990; there are `ceil(len / 1990)` of them, none for an empty message |
| Chunking.SliceAt | reporter.py:192 | slice `k` starts `k * 1990` characters further on |
| Chunking.ChunksAreComprehension | reporter.py:192 | the chunks equal the comprehension `[s[i:i + 1990] for i in range(0, len(s), 1990)]` |
| Chunking.SendToDiscord | reporter.py:184-200 | without a webhook the content is printed unchanged; otherwise every chunk is posted to the webhook in order, and the payloads reproduce the content |
| Narrative.GenerateReport | reporter.py:149-181 | the missing-key notice when no API key is set, checked before anything else; the no-metrics notice when the metrics text is empty; otherwise the model's answer or the error line naming its exception |
| Narrative.Run | reporter.py:203-222 | a walk exception ends the run; no queries stops it before the narrative; otherwise the configuration is complete and the delivered narrative is the missing-key notice or the model's reply; the no-metrics branch is never taken |

## Left out

- The HTTP exchanges are inputs rather than calls: the dashboard request with its headers and 10-second timeout, the Discord posts and `raise_for_status`.
- JSON parsing is left out: a body that fails to parse is `Body.NotJson`, and a parsed one is a `Json` value.
- PyJson.Lookup: on a dict with a repeated key it finds the first binding, whereas the decoder keeps the last. A decoded dict never repeats a key (`PyJson.DistinctKeys`), and on such a dict first and last binding are the same (`PyJson.LookupDistinct`). The walk itself accepts any list of fields.
- Numbers in the document are `real`. Only their truthiness matters to the walk, so JSON's integer/float distinction is not modelled.
- `prom.custom_query` is left out: it is a foreign client, and what it does for each query is an `Answer`.
- `float(...)` and `:.2f` are left out, since they are floating-point formatting. A series' value is the already formatted string. A series whose rendering raises (non-dict series, missing or unparsable value) has no value.
- Labels: label values are strings, because Prometheus label values are strings. A Python f-string of a non-string value is not modelled.
- Report.TitleText: strings, `None` and booleans render exactly. Python's `str()` of numeric, list and dict titles is the parameter `show` and is not modelled.
- The Gemini client setup, the prompt text and `generate_content` are foreign calls. The model's answer or exception message is a `ModelReply`.
- Environment reads, `print` logging, `exit(1)` and the client initialisation (reporter.py:22-46) are left out as process plumbing. The configuration is an immutable `Config` record.
- Narrative.Run: the messages printed between steps are not modelled.
- Chunking.SendToDiscord: which posts fail is not modelled. A failure is only logged, and every chunk is still attempted.

=== FILE: base.dfy ===
/** Small shared vocabulary: optional values, results, and Python's
    treatment of optional configuration strings. */
module Base {

  /** A value that may be absent, such as an environment variable that is unset. */
  datatype Option<+T> = None | Some(value: T)

  /** The value of a computation that may raise an exception of type E instead. */
  datatype Result<+T, +E> = Ok(value: T) | Err(error: E)

  /** Python truthiness of an `os.environ.get` value: unset and empty are both false. */
  predicate Present(o: Option<string>)
  {
    o.Some? && o.value != ""
  }

  /** How an f-string renders an optional string: `None` prints as "None". */
  function Format(o: Option<string>): string
  {
    match o
    case None => "None"
    case Some(s) => s
  }
}

=== FILE: chunking.dfy ===
/** Delivery of the finished report to Discord (`send_to_discord`,
    reporter.py:184-200): without a webhook the text is printed, else it
    is cut into consecutive slices of at most 1990 characters, below
    Discord's 2000-character message limit, and each slice is posted in
    order. */
module Chunking {
  import opened Base
  import opened Text

  /** The slice length. */
  const ChunkSize := 1990

  function Min(a: int, b: int): int
  {
    if a <= b then a else b
  }

  /** Python's `s[i:i + 1990]` for `0 <= i <= len(s)`: the end is clamped. */
  function Slice(s: string, i: nat): string
    requires i <= |s|
  {
    s[i..Min(i + ChunkSize, |s|)]
  }

  /** The number of slices of `n` characters: `ceil(n / 1990)`. */
  function ChunkCount(n: nat): nat
  {
    (n + ChunkSize - 1) / ChunkSize
  }

  /** The slices starting at `start`, `start + 1990`, ... while inside `s`.
      They are non-empty and at most 1990 long, all but the last exactly
      1990 long, there are `ceil((|s| - start) / 1990)` of them, and glued
      together they give back `s[start..]`. */
  function SlicesFrom(s: string, start: nat): (r: seq<string>)
    requires start <= |s|
    ensures |r| == ChunkCount(|s| - start)
    ensures forall k | 0 <= k < |r| :: 0 < |r[k]| <= ChunkSize
    ensures forall k | 0 <= k < |r| - 1 :: |r[k]| == ChunkSize
    ensures Concat(r) == s[start..]
    decreases |s| - start
  {
    if start == |s| then []
    else
      var next := Min(start + ChunkSize, |s|);
      var rest := SlicesFrom(s, next);
      assert ([Slice(s, start)] + rest)[1..] == rest;
      assert s[start..] == Slice(s, start) + s[next..];
      [Slice(s, start)] + rest
  }

  /** The chunks of the message, as cut at reporter.py:192. */
  function Chunks(s: string): (r: seq<string>)
    ensures |r| == ChunkCount(|s|)
    ensures |s| == 0 <==> r == []
    ensures forall k | 0 <= k < |r| :: 0 < |r[k]| <= ChunkSize
    ensures forall k | 0 <= k < |r| - 1 :: |r[k]| == ChunkSize
    ensures Concat(r) == s
  {
    assert s[0..] == s;
    SlicesFrom(s, 0)
  }

  /** Slice `k` from `start` begins `k * 1990` characters further on. */
  lemma {:induction false} SliceAt(s: string, start: nat, k: nat)
    requires start <= |s|
    requires k < |SlicesFrom(s, start)|
    ensures start + k * ChunkSize <= |s|
    ensures SlicesFrom(s, start)[k] == Slice(s, start + k * ChunkSize)
    decreases k
  {
    if k > 0 {
      var next := Min(start + ChunkSize, |s|);
      assert SlicesFrom(s, start)[k] == SlicesFrom(s, next)[k - 1];
      SliceAt(s, next, k - 1);
    }
  }

  /** The chunks are exactly the list comprehension of reporter.py:192,
      `[s[i:i + 1990] for i in range(0, len(s), 1990)]`: chunk `k` is the
      slice starting at `k * 1990`, for every `k` below `ceil(|s| / 1990)`. */
  lemma ChunksAreComprehension(s: string)
    ensures forall k | 0 <= k < ChunkCount(|s|) :: k * ChunkSize <= |s|
    ensures Chunks(s) == seq(ChunkCount(|s|), k requires 0 <= k < ChunkCount(|s|) && k * ChunkSize <= |s| =>
                               Slice(s, k * ChunkSize))
  {
    forall k | 0 <= k < ChunkCount(|s|)
      ensures k * ChunkSize <= |s| && Chunks(s)[k] == Slice(s, k * ChunkSize)
    {
      SliceAt(s, 0, k);
    }
  }

  /** What `send_to_discord` does with the report: print it, or post it as
      a sequence of `{"content": chunk}` payloads to the webhook. A failed
      post is logged and the remaining chunks are still posted, so every
      chunk is attempted. */
  datatype Delivery = Printed(text: string) | Posted(url: string, payloads: seq<string>)

  /** `send_to_discord(content)` with `webhook` the configured URL. */
  function SendToDiscord(webhook: Option<string>, content: string): (r: Delivery)
    ensures r.Printed? <==> !Present(webhook)
    ensures r.Printed? ==> r.text == content
    ensures r.Posted? ==> r.url == webhook.value
    ensures r.Posted? ==> Concat(r.payloads) == content
    ensures r.Posted? ==> forall k | 0 <= k < |r.payloads| :: 0 < |r.payloads[k]| <= ChunkSize
    ensures r.Posted? ==> |r.payloads| == ChunkCount(|content|)
  {
    if !Present(webhook) then Printed(content) else Posted(webhook.value, Chunks(content))
  }
}

=== FILE: extraction.dfy ===
/** Dashboard query extraction (`get_all_queries_from_grafana`,
    reporter.py:49-101): the configuration guard, the handling of the HTTP
    reply, and the walk that flattens `dashboard.panels[].targets[]` into an
    ordered list of titled Prometheus queries. The HTTP exchange itself is
    an input: the reply the dashboard API gave, if it was asked. */
module Extraction {
  import opened Base
  import opened Text
  import opened PyJson
  import opened Substitution

  /** The process configuration, read once from the environment. */
  datatype Config = Config(
    prometheusUrl: Option<string>,
    discordWebhookUrl: Option<string>,
    geminiApiKey: Option<string>,
    grafanaUrl: Option<string>,
    grafanaApiKey: Option<string>,
    grafanaPublicDomain: Option<string>,
    dashboardUid: Option<string>)

  /** One extracted query with the title of the panel it came from. The
      title is whatever JSON value the panel holds under `title`. */
  datatype QueryItem = QueryItem(title: Json, query: string)

  /** What came back from `requests.get` on the dashboard API. */
  datatype Response =
    | NetworkFailure                     // a RequestException, timeouts included
    | Reply(status: int, body: Body)

  /** The reply body as `response.json()` sees it. */
  datatype Body = NotJson | Parsed(json: Json)

  /** The outcome of one step of the walk: the queries it found, or the
      exception it raised (none of which the function catches). */
  type Found = Result<seq<QueryItem>, PyError>

  const UntitledPanel := "제목 없는 패널"
  const DashboardApiPath := "/api/dashboards/uid/"
  const PrometheusType := "prometheus"

  /** A query in which neither Grafana placeholder survives. */
  predicate PlaceholderFree(query: string)
  {
    !Contains(query, RangeToken) && !Contains(query, IntervalToken)
  }

  /** All four settings the dashboard request needs are set and non-empty. */
  predicate ConfigComplete(cfg: Config, uid: Option<string>)
  {
    Present(cfg.grafanaUrl) && Present(cfg.grafanaApiKey)
    && Present(cfg.grafanaPublicDomain) && Present(uid)
  }

  /** The URL requested from the dashboard API, or None when the guard
      stops the function before any request is made. */
  function DashboardUrl(cfg: Config, uid: Option<string>): (url: Option<string>)
    ensures url.None? <==> !ConfigComplete(cfg, uid)
  {
    if ConfigComplete(cfg, uid)
    then Some(cfg.grafanaUrl.value + DashboardApiPath + uid.value)
    else None
  }

  /** Two steps run one after the other: the first exception raised ends
      the walk, otherwise their queries are concatenated in order. */
  function Then(a: Found, b: Found): Found
  {
    match a
    case Err(e) => Err(e)
    case Ok(x) =>
      match b
      case Err(e) => Err(e)
      case Ok(y) => Ok(x + y)
  }

  lemma ThenAssociative(a: Found, b: Found, c: Found)
    ensures Then(Then(a, b), c) == Then(a, Then(b, c))
  {
    if a.Ok? && b.Ok? && c.Ok? {
      assert (a.value + b.value) + c.value == a.value + (b.value + c.value);
    }
  }

  /** A step that finds nothing and raises nothing is neutral. */
  lemma ThenNeutral(r: Found)
    ensures Then(Ok([]), r) == r && Then(r, Ok([])) == r
  {
    if r.Ok? {
      assert [] + r.value == r.value && r.value + [] == r.value;
    }
  }

  /** What one target contributes to its panel: nothing when it is hidden
      or has no truthy `expr`, else its substituted query. */
  function TargetItem(title: Json, target: Json): (r: Found)
    ensures !target.JObj? ==> r == Err(AttributeError)
    ensures target.JObj? && Truthy(Get(target.fields, "hide", JNull)) ==> r == Ok([])
    ensures target.JObj? && !Truthy(Get(target.fields, "expr", JNull)) ==> r == Ok([])
    ensures target.JObj? && !Truthy(Get(target.fields, "hide", JNull))
            && Truthy(Get(target.fields, "expr", JNull)) ==>
              var expr := Get(target.fields, "expr", JNull);
              if expr.JStr? then r == Ok([QueryItem(title, Substitute(expr.s))])
              else r == Err(AttributeError)
  {
    if !target.JObj? then Err(AttributeError)
    else
      var fields := target.fields;
      if !Truthy(Get(fields, "hide", JNull)) && HasKey(fields, "expr") && Truthy(Get(fields, "expr", JNull)) then
        match Get(fields, "expr", JNull)
        case JStr(e) => Ok([QueryItem(title, Substitute(e))])
        case _ => Err(AttributeError)
      else Ok([])
  }

  /** The queries of a panel's targets, in target order, all under the
      panel's title. */
  function TargetsItems(title: Json, targets: seq<Json>): (r: Found)
    ensures r.Ok? ==> |r.value| <= |targets|
    ensures r.Ok? ==> forall i | 0 <= i < |r.value| ::
              r.value[i].title == title && PlaceholderFree(r.value[i].query)
    decreases |targets|
  {
    if |targets| == 0 then Ok([])
    else Then(TargetItem(title, targets[0]), TargetsItems(title, targets[1..]))
  }

  /** `panel.get('title', '제목 없는 패널')`. */
  function PanelTitle(fields: seq<(string, Json)>): Json
  {
    Get(fields, "title", JStr(UntitledPanel))
  }

  /** The datasource test: the panel's datasource is a dict whose `type` is
      "prometheus", or is an explicit null. A missing datasource defaults to
      an empty dict and so fails the test. */
  predicate IsPrometheusPanel(fields: seq<(string, Json)>)
  {
    var ds := Get(fields, "datasource", JObj([]));
    (ds.JObj? && Lookup(ds.fields, "type") == Some(JStr(PrometheusType))) || ds == JNull
  }

  /** The datasource test by the kind of value the panel holds: an absent
      datasource fails it, an explicit null passes it, a dict passes it
      exactly when its `type` is "prometheus", and a string, number, list
      or boolean fails it. */
  lemma DatasourceTest(fields: seq<(string, Json)>)
    ensures !HasKey(fields, "datasource") ==> !IsPrometheusPanel(fields)
    ensures Lookup(fields, "datasource") == Some(JNull) ==> IsPrometheusPanel(fields)
    ensures Get(fields, "datasource", JNull).JObj? ==>
              (IsPrometheusPanel(fields) <==>
               Lookup(Get(fields, "datasource", JNull).fields, "type") == Some(JStr(PrometheusType)))
    ensures var ds := Get(fields, "datasource", JNull);
            HasKey(fields, "datasource") && !ds.JObj? && !ds.JNull? ==> !IsPrometheusPanel(fields)
  {
    if !HasKey(fields, "datasource") {
      assert Lookup([], "type") == None;
    }
  }

  /** What one panel contributes. */
  function PanelItems(panel: Json): (r: Found)
    ensures !panel.JObj? ==> r == Err(AttributeError)
    ensures panel.JObj? && !HasKey(panel.fields, "targets") ==> r == Ok([])
    ensures panel.JObj? && !HasKey(panel.fields, "datasource") ==> r == Ok([])
    ensures panel.JObj? && Get(panel.fields, "datasource", JNull).JStr? ==> r == Ok([])
    ensures panel.JObj? && Lookup(panel.fields, "datasource") == Some(JNull) ==> IsPrometheusPanel(panel.fields)
    ensures panel.JObj? && !(HasKey(panel.fields, "targets") && IsPrometheusPanel(panel.fields)) ==> r == Ok([])
    ensures panel.JObj? && HasKey(panel.fields, "targets") && IsPrometheusPanel(panel.fields) ==>
              match Elements(Get(panel.fields, "targets", JNull))
              case Err(e) => r == Err(e)
              case Ok(ts) => r == TargetsItems(PanelTitle(panel.fields), ts)
    ensures r.Ok? ==> forall i | 0 <= i < |r.value| ::
              r.value[i].title == PanelTitle(panel.fields) && PlaceholderFree(r.value[i].query)
  {
    if !panel.JObj? then Err(AttributeError)
    else
      var fields := panel.fields;
      if HasKey(fields, "targets") && IsPrometheusPanel(fields) then
        match Elements(Get(fields, "targets", JNull))
        case Err(e) => Err(e)
        case Ok(ts) => TargetsItems(PanelTitle(fields), ts)
      else Ok([])
  }

  /** The queries of all panels, panel after panel. */
  function PanelsItems(panels: seq<Json>): (r: Found)
    ensures r.Ok? ==> forall i | 0 <= i < |r.value| :: PlaceholderFree(r.value[i].query)
    decreases |panels|
  {
    if |panels| == 0 then Ok([])
    else Then(PanelItems(panels[0]), PanelsItems(panels[1..]))
  }

  /** `dashboard_data.get('dashboard', {}).get('panels', [])`, then the walk. */
  function DashboardItems(data: Json): (r: Found)
    ensures !data.JObj? ==> r == Err(AttributeError)
    ensures data.JObj? ==>
              var d := Get(data.fields, "dashboard", JObj([]));
              && (!d.JObj? ==> r == Err(AttributeError))
              && (d.JObj? ==> r == match Elements(Get(d.fields, "panels", JArr([])))
                                   case Err(e) => Err(e)
                                   case Ok(ps) => PanelsItems(ps))
    ensures r.Ok? ==> forall i | 0 <= i < |r.value| :: PlaceholderFree(r.value[i].query)
  {
    if !data.JObj? then Err(AttributeError)
    else
      var dashboard := Get(data.fields, "dashboard", JObj([]));
      if !dashboard.JObj? then Err(AttributeError)
      else
        match Elements(Get(dashboard.fields, "panels", JArr([])))
        case Err(e) => Err(e)
        case Ok(panels) => PanelsItems(panels)
  }

  /** `get_all_queries_from_grafana(uid)`, given the reply the dashboard API
      would give. Every failure it handles becomes the empty list. */
  function GetAllQueries(cfg: Config, uid: Option<string>, response: Response): (r: Found)
    ensures !ConfigComplete(cfg, uid) ==> r == Ok([])
    ensures response.NetworkFailure? ==> r == Ok([])
    ensures response.Reply? && response.status != 200 ==> r == Ok([])
    ensures response.Reply? && response.body.NotJson? ==> r == Ok([])
    ensures ConfigComplete(cfg, uid) && response.Reply? && response.status == 200 && response.body.Parsed? ==>
              r == DashboardItems(response.body.json)
    ensures r != Ok([]) ==> ConfigComplete(cfg, uid)
    ensures r.Ok? ==> forall i | 0 <= i < |r.value| :: PlaceholderFree(r.value[i].query)
  {
    if !ConfigComplete(cfg, uid) then Ok([])
    else
      match response
      case NetworkFailure => Ok([])
      case Reply(status, body) =>
        if status != 200 then Ok([])
        else
          match body
          case NotJson => Ok([])
          case Parsed(data) => DashboardItems(data)
  }

  /** With the guard failing no request is made: the result is the empty
      list whatever the dashboard API would have answered. */
  lemma NoRequestWithoutConfig(cfg: Config, uid: Option<string>)
    requires !ConfigComplete(cfg, uid)
    ensures DashboardUrl(cfg, uid).None?
    ensures forall response :: GetAllQueries(cfg, uid, response) == Ok([])
  {
  }

  /** Targets are visited in order: the targets of `a + b` yield the queries
      of `a` followed by those of `b`, and each target yields exactly its
      own. */
  lemma {:induction false} TargetsAppend(title: Json, a: seq<Json>, b: seq<Json>)
    ensures TargetsItems(title, a + b) == Then(TargetsItems(title, a), TargetsItems(title, b))
    ensures forall t :: TargetsItems(title, [t]) == TargetItem(title, t)
    decreases |a|
  {
    forall t
      ensures TargetsItems(title, [t]) == TargetItem(title, t)
    {
      assert [t][1..] == [];
      ThenNeutral(TargetItem(title, t));
    }
    if |a| == 0 {
      assert a + b == b;
      ThenNeutral(TargetsItems(title, b));
    } else {
      assert (a + b)[1..] == a[1..] + b;
      TargetsAppend(title, a[1..], b);
      ThenAssociative(TargetItem(title, a[0]), TargetsItems(title, a[1..]), TargetsItems(title, b));
    }
  }

  /** Panels are visited in order: the panels of `a + b` yield the queries of
      `a` followed by those of `b`, and each panel yields exactly its own. */
  lemma {:induction false} PanelsAppend(a: seq<Json>, b: seq<Json>)
    ensures PanelsItems(a + b) == Then(PanelsItems(a), PanelsItems(b))
    ensures PanelsItems([]) == Ok([])
    ensures forall p :: PanelsItems([p]) == PanelItems(p)
    decreases |a|
  {
    forall p
      ensures PanelsItems([p]) == PanelItems(p)
    {
      assert [p][1..] == [];
      ThenNeutral(PanelItems(p));
    }
    if |a| == 0 {
      assert a + b == b;
      ThenNeutral(PanelsItems(b));
    } else {
      assert (a + b)[1..] == a[1..] + b;
      PanelsAppend(a[1..], b);
      ThenAssociative(PanelItems(a[0]), PanelsItems(a[1..]), PanelsItems(b));
    }
  }

  /** A panel that has targets and an explicit Prometheus datasource. */
  function PrometheusPanel(title: string, targets: seq<Json>): Json
  {
    JObj([("title", JStr(title)),
          ("datasource", JObj([("type", JStr(PrometheusType))])),
          ("targets", JArr(targets))])
  }

  /** A panel with one visible target whose `expr` is the non-empty string
      `expr` yields exactly one query, `expr` with its placeholders
      substituted, under the panel's title, when its datasource is
      Prometheus; the same panel with no datasource yields nothing. (With
      `expr` = `sum(rate($__range))` the query is `sum(rate(24h))`, see
      SubstituteExample.) */
  lemma SingleTargetPanel(title: string, expr: string)
    requires expr != ""
    ensures var target := JObj([("expr", JStr(expr)), ("hide", JBool(false))]);
            && PanelsItems([PrometheusPanel(title, [target])])
               == Ok([QueryItem(JStr(title), Substitute(expr))])
            && PanelsItems([JObj([("title", JStr(title)), ("targets", JArr([target]))])]) == Ok([])
  {
    var target := JObj([("expr", JStr(expr)), ("hide", JBool(false))]);
    var item := QueryItem(JStr(title), Substitute(expr));
    assert target.fields[1..][0].0 == "hide";
    assert Lookup(target.fields, "hide") == Some(JBool(false));
    assert Lookup(target.fields, "expr") == Some(JStr(expr));
    assert TargetItem(JStr(title), target) == Ok([item]);
    ThenNeutral(Ok([item]));
    assert TargetsItems(JStr(title), [target]) == Ok([item]);
    var panel := PrometheusPanel(title, [target]);
    assert Lookup(panel.fields, "title") == Some(JStr(title));
    assert panel.fields[1..][0].0 == "datasource";
    assert Lookup(panel.fields, "datasource") == Some(JObj([("type", JStr(PrometheusType))]));
    assert panel.fields[2..][0].0 == "targets";
    assert Lookup(panel.fields[2..], "targets") == Some(JArr([target]));
    assert Lookup(panel.fields[1..], "targets") == Some(JArr([target]));
    assert Lookup(panel.fields, "targets") == Some(JArr([target]));
    assert PanelItems(panel) == Ok([item]);
    var bare := JObj([("title", JStr(title)), ("targets", JArr([target]))]);
    assert bare.fields[1..][0].0 == "targets";
    assert |bare.fields[1..][1..]| == 0;
    assert Lookup(bare.fields[1..], "datasource") == None;
    assert Lookup(bare.fields, "datasource") == None;
    PanelsAppend([], []);
  }
}

=== FILE: json.dfy ===
/** The dashboard document as Python's `json` module hands it over, and the
    few Python operations the extraction applies to it: `dict.get`, `in`,
    truthiness and iteration. */
module PyJson {
  import opened Base

  /** A decoded JSON value. A dict keeps its fields in document order. The
      fields of a dict produced by Python's decoder have distinct keys (a
      repeated key keeps only its last value), and on such fields `Lookup`
      finds the one binding of a key (see LookupDistinct). */
  datatype Json =
    | JNull
    | JBool(b: bool)
    | JNum(n: real)
    | JStr(s: string)
    | JArr(items: seq<Json>)
    | JObj(fields: seq<(string, Json)>)

  /** The exceptions a walk over a badly shaped document raises: calling
      `.get` or `.replace` on a value of the wrong type, or iterating a
      value that is not iterable. */
  datatype PyError = AttributeError | TypeError

  /** Python truthiness: `None`, `False`, zero and empty containers are false. */
  predicate Truthy(v: Json)
  {
    match v
    case JNull => false
    case JBool(b) => b
    case JNum(n) => n != 0.0
    case JStr(s) => s != ""
    case JArr(xs) => xs != []
    case JObj(fs) => fs != []
  }

  /** The value bound to `key`, if any. */
  function Lookup(fields: seq<(string, Json)>, key: string): Option<Json>
  {
    if |fields| == 0 then None
    else if fields[0].0 == key then Some(fields[0].1)
    else Lookup(fields[1..], key)
  }

  /** No key is bound twice, as in every dict the decoder produces. */
  predicate DistinctKeys(fields: seq<(string, Json)>)
  {
    forall i, j | 0 <= i < j < |fields| :: fields[i].0 != fields[j].0
  }

  /** On a decoded dict a lookup finds the value bound to the key, and a
      key bound nowhere is absent. */
  lemma {:induction false} LookupDistinct(fields: seq<(string, Json)>, key: string)
    requires DistinctKeys(fields)
    ensures forall i | 0 <= i < |fields| && fields[i].0 == key :: Lookup(fields, key) == Some(fields[i].1)
    ensures (forall i | 0 <= i < |fields| :: fields[i].0 != key) ==> Lookup(fields, key) == None
    decreases |fields|
  {
    if |fields| > 0 {
      var rest := fields[1..];
      assert DistinctKeys(rest) by {
        forall i, j | 0 <= i < j < |rest|
          ensures rest[i].0 != rest[j].0
        {
          assert rest[i] == fields[i + 1] && rest[j] == fields[j + 1];
        }
      }
      LookupDistinct(rest, key);
      forall i | 0 < i < |fields| && fields[i].0 == key
        ensures Lookup(fields, key) == Some(fields[i].1)
      {
        assert fields[0].0 != fields[i].0;
        assert rest[i - 1] == fields[i];
      }
      if fields[0].0 != key {
        forall i | 0 <= i < |rest|
          ensures rest[i] == fields[i + 1]
        {
        }
      }
    }
  }

  /** `d.get(key, default)`. */
  function Get(fields: seq<(string, Json)>, key: string, default: Json): Json
  {
    match Lookup(fields, key)
    case Some(v) => v
    case None => default
  }

  /** `key in d`. */
  predicate HasKey(fields: seq<(string, Json)>, key: string)
  {
    Lookup(fields, key).Some?
  }

  /** What `for x in v` visits: a list's items, a string's one-character
      strings, a dict's keys; `None`, booleans and numbers raise TypeError. */
  function Elements(v: Json): (r: Result<seq<Json>, PyError>)
    ensures r.Err? <==> (v.JNull? || v.JBool? || v.JNum?)
    ensures v.JArr? ==> r == Ok(v.items)
    ensures v.JStr? || v.JObj? ==> r.Ok? && forall i | 0 <= i < |r.value| :: r.value[i].JStr?
    ensures v.JStr? ==> |r.value| == |v.s| && forall i | 0 <= i < |v.s| :: r.value[i] == JStr([v.s[i]])
    ensures v.JObj? ==> |r.value| == |v.fields| && forall i | 0 <= i < |v.fields| :: r.value[i] == JStr(v.fields[i].0)
  {
    match v
    case JArr(xs) => Ok(xs)
    case JStr(s) => Ok(seq(|s|, i requires 0 <= i < |s| => JStr([s[i]])))
    case JObj(fs) => Ok(seq(|fs|, i requires 0 <= i < |fs| => JStr(fs[i].0)))
    case _ => Err(TypeError)
  }
}

=== FILE: labels.dfy ===
/** The label string of one Prometheus series (reporter.py:128-132): every
    label but `__name__`, written `k="v"` and joined with ", ", or "Total"
    when nothing is left. Labels are a sequence of pairs in the order the
    series' label dict lists them. */
module Labels {
  import opened Text

  /** The label Prometheus uses for the metric name. */
  const NameLabel := "__name__"

  /** What the report shows for a series with no other label. */
  const TotalLabel := "Total"

  const Separator := ", "

  /** One label as the report writes it: `k="v"`. */
  function Entry(pair: (string, string)): string
  {
    pair.0 + "=\"" + pair.1 + "\""
  }

  /** The labels other than `__name__`, in their original order. */
  function Shown(labels: seq<(string, string)>): (r: seq<(string, string)>)
    ensures |r| <= |labels|
    ensures forall i | 0 <= i < |r| :: r[i].0 != NameLabel && r[i] in labels
    ensures |r| == 0 <==> forall i | 0 <= i < |labels| :: labels[i].0 == NameLabel
  {
    if |labels| == 0 then []
    else if labels[0].0 == NameLabel then Shown(labels[1..])
    else [labels[0]] + Shown(labels[1..])
  }

  /** Every label of `labels` written `k="v"`, in order. */
  function Entries(labels: seq<(string, string)>): seq<string>
  {
    seq(|labels|, i requires 0 <= i < |labels| => Entry(labels[i]))
  }

  /** The label string; "Total" exactly when every label is `__name__`. */
  function LabelString(labels: seq<(string, string)>): (r: string)
    ensures r == TotalLabel <==> forall i | 0 <= i < |labels| :: labels[i].0 == NameLabel
  {
    var shown := Shown(labels);
    var joined := Join(Separator, Entries(shown));
    JoinedIsNotTotal(shown);
    if joined == "" then TotalLabel else joined
  }

  /** Joined entries are empty only when there are none, and never read
      "Total": every entry holds an `=`. */
  lemma JoinedIsNotTotal(shown: seq<(string, string)>)
    ensures |shown| > 0 ==> Join(Separator, Entries(shown)) !in {"", TotalLabel}
  {
    if |shown| > 0 {
      var joined := Join(Separator, Entries(shown));
      JoinStartsWithFirst(Separator, Entries(shown));
      var k := shown[0].0;
      assert joined[|k|] == Entry(shown[0])[|k|] == '=';
    }
  }

  /** Filtering out `__name__` keeps the order: the labels shown of `a + b`
      are those of `a` followed by those of `b`. */
  lemma {:induction false} ShownAppend(a: seq<(string, string)>, b: seq<(string, string)>)
    ensures Shown(a + b) == Shown(a) + Shown(b)
    decreases |a|
  {
    if |a| == 0 {
      assert a + b == b;
    } else {
      assert (a + b)[1..] == a[1..] + b;
      ShownAppend(a[1..], b);
    }
  }

  /** A single label renders as itself, unless it is `__name__`. */
  lemma LabelStringSingle(k: string, v: string)
    ensures LabelString([(k, v)]) == if k == NameLabel then TotalLabel else k + "=\"" + v + "\""
  {
    assert [(k, v)][1..] == [];
  }

  /** Rendering is compositional: labels `a + b` render as the rendering of
      `a`, ", ", and the rendering of `b`, where a part made only of
      `__name__` contributes nothing. */
  lemma LabelStringAppend(a: seq<(string, string)>, b: seq<(string, string)>)
    ensures LabelString(a) == TotalLabel ==> LabelString(a + b) == LabelString(b)
    ensures LabelString(b) == TotalLabel ==> LabelString(a + b) == LabelString(a)
    ensures LabelString(a) != TotalLabel && LabelString(b) != TotalLabel ==>
              LabelString(a + b) == LabelString(a) + Separator + LabelString(b)
  {
    ShownAppend(a, b);
    var sa, sb := Shown(a), Shown(b);
    assert Entries(sa + sb) == Entries(sa) + Entries(sb);
    if |sa| > 0 && |sb| > 0 {
      JoinAppend(Separator, Entries(sa), Entries(sb));
    } else if |sa| == 0 {
      assert sa + sb == sb;
    } else {
      assert sa + sb == sa;
    }
  }
}

=== FILE: narrative.dfy ===
/** The narrative step (`generate_report_with_gemini`, reporter.py:149-181)
    and the script's top-level flow (reporter.py:203-222). The language
    model is an input: the text it answered with, or the message of the
    exception its call raised. */
module Narrative {
  import opened Base
  import opened PyJson
  import opened Extraction
  import opened Report
  import opened Chunking

  const MissingKeyNotice := "Gemini API 키가 설정되지 않았습니다."
  const NoMetricsNotice := "메트릭 데이터를 수집하지 못해 리포트를 생성할 수 없습니다."
  const ModelErrorPrefix := "Gemini API 호출 중 에러가 발생했습니다: "

  /** What the call to the model gave back. */
  datatype ModelReply = Answered(text: string) | Failed(message: string)

  /** The narrative for `metrics`: a fixed notice when no API key is
      configured (checked first) or when there is no metrics text, else the
      model's answer, or a line naming the exception it raised. */
  function GenerateReport(apiKey: Option<string>, metrics: Option<string>, reply: ModelReply): (r: string)
    ensures !Present(apiKey) ==> r == MissingKeyNotice
    ensures Present(apiKey) && !Present(metrics) ==> r == NoMetricsNotice
    ensures Present(apiKey) && Present(metrics) ==>
              r == match reply
                   case Answered(t) => t
                   case Failed(m) => ModelErrorPrefix + m
  {
    if !Present(apiKey) then MissingKeyNotice
    else if !Present(metrics) then NoMetricsNotice
    else
      match reply
      case Answered(t) => t
      case Failed(m) => ModelErrorPrefix + m
  }

  /** How a run of the script ends: it stops after the metrics step, or it
      hands a narrative to the delivery step. */
  datatype Outcome = Stopped | Delivered(delivery: Delivery)

  /** The script's main flow: collect the metrics report; when there is one,
      turn it into a narrative and deliver it. A walk error in the metrics
      step ends the run. A narrative is only produced from a non-empty
      report, so the no-metrics notice of `GenerateReport` is never
      delivered on this path. */
  method Run(cfg: Config, response: Response, answers: seq<Answer>, show: Json -> string, reply: ModelReply)
    returns (r: Result<Outcome, PyError>)
    requires GetAllQueries(cfg, cfg.dashboardUid, response).Ok? ==>
               |answers| == |GetAllQueries(cfg, cfg.dashboardUid, response).value|
    ensures r.Err? <==> GetAllQueries(cfg, cfg.dashboardUid, response).Err?
    ensures r == Ok(Stopped) <==> GetAllQueries(cfg, cfg.dashboardUid, response) == Ok([])
    ensures r.Ok? && r.value.Delivered? ==>
              && ConfigComplete(cfg, cfg.dashboardUid)
              && r.value.delivery == SendToDiscord(cfg.discordWebhookUrl,
                   if !Present(cfg.geminiApiKey) then MissingKeyNotice
                   else match reply
                        case Answered(t) => t
                        case Failed(m) => ModelErrorPrefix + m)
  {
    var metrics := GetMetrics(cfg, response, answers, show);
    match metrics {
      case Err(e) =>
        return Err(e);
      case Ok(None) =>
        return Ok(Stopped);
      case Ok(Some(text)) =>
        var found := GetAllQueries(cfg, cfg.dashboardUid, response);
        HeaderNonEmpty(Format(cfg.dashboardUid), Sections(Pair(found.value, answers), show));
        var narrative := GenerateReport(cfg.geminiApiKey, Some(text), reply);
        return Ok(Delivered(SendToDiscord(cfg.discordWebhookUrl, narrative)));
    }
  }
}

=== FILE: report.dfy ===
/** Report assembly (`get_metrics`, reporter.py:104-146): every extracted
    query gets a `### title` section holding either one bullet per returned
    series or a fixed marker. The Prometheus client is an input: the answer
    it gave to each query, in order. */
module Report {
  import opened Base
  import opened Text
  import opened PyJson
  import opened Labels
  import opened Extraction

  /** How `prom.custom_query` failed: with the client's own exception, or
      with anything else. */
  datatype Failure = ApiClientError | OtherError

  /** One returned series: its label dict as ordered pairs, and its value
      as `float(metric['value'][1])` formatted with two decimals, or None
      when rendering the series raises (a series that is not a dict, a
      missing value, a number that does not parse). */
  datatype Series = Series(labels: seq<(string, string)>, value: Option<string>)

  /** What the backend did with one query. */
  datatype Answer = Raised(failure: Failure) | Returned(series: seq<Series>)

  const NoDataLine := "- (데이터 없음)\n\n"
  const QueryFailedLine := "  - (쿼리 실행 중 에러 발생)\n\n"
  const UnknownErrorLine := "  - (알 수 없는 에러 발생)\n\n"

  /** The report's opening lines, naming the dashboard. */
  function Header(uid: string): string
  {
    "## 📈 Grafana 대시보드 자동 요약 보고서\n(Dashboard: " + uid + ")\n\n"
  }

  /** A report always holds its header, so it is never empty. */
  lemma HeaderNonEmpty(uid: string, rest: string)
    ensures Present(Some(Header(uid) + rest))
  {
    assert (Header(uid) + rest)[0] == '#';
  }

  /** How an f-string renders a panel title. Strings, None and booleans are
      rendered exactly; Python's str() of numbers, lists and dicts is the
      parameter `show`. */
  function TitleText(title: Json, show: Json -> string): string
  {
    match title
    case JStr(s) => s
    case JNull => "None"
    case JBool(b) => if b then "True" else "False"
    case _ => show(title)
  }

  /** The bullet of one series whose value converted. */
  function SeriesLine(labels: seq<(string, string)>, value: string): string
  {
    "- `" + LabelString(labels) + "`: **" + value + "**\n"
  }

  /** All series have a value that converts. */
  predicate AllValued(ss: seq<Series>)
  {
    forall i | 0 <= i < |ss| :: ss[i].value.Some?
  }

  /** The bullets of series that all convert, in order. */
  function Bullets(ss: seq<Series>): string
    requires AllValued(ss)
  {
    if |ss| == 0 then "" else SeriesLine(ss[0].labels, ss[0].value.value) + Bullets(ss[1..])
  }

  /** What the series loop appends: a bullet per series until one fails to
      convert, at which point the generic handler appends its marker; a
      blank line if none fails. */
  function SeriesText(ss: seq<Series>): string
  {
    if |ss| == 0 then "\n"
    else
      match ss[0].value
      case None => UnknownErrorLine
      case Some(v) => SeriesLine(ss[0].labels, v) + SeriesText(ss[1..])
  }

  /** A string whose last line is blank. */
  predicate EndsWithBlankLine(s: string)
  {
    |s| >= 2 && s[|s| - 2..] == "\n\n"
  }

  /** The lines before a failing series stay in the report: with `good` all
      converting, the series `good + tail` render as the bullets of `good`
      followed by a blank line when `tail` is empty, and by the unknown-error
      marker when `tail` starts with a failing series (whose successors are
      never looked at). */
  lemma {:induction false} SeriesUpToFailure(good: seq<Series>, tail: seq<Series>)
    requires AllValued(good)
    ensures tail == [] ==> SeriesText(good + tail) == Bullets(good) + "\n"
    ensures |tail| > 0 && tail[0].value.None? ==>
              SeriesText(good + tail) == Bullets(good) + UnknownErrorLine
    decreases |good|
  {
    if |good| == 0 {
      assert good + tail == tail;
    } else {
      var w := good + tail;
      assert w[0] == good[0] && w[1..] == good[1..] + tail;
      assert AllValued(good[1..]);
      SeriesUpToFailure(good[1..], tail);
      assert SeriesText(w) == SeriesLine(good[0].labels, good[0].value.value) + SeriesText(w[1..]);
    }
  }

  /** Series output of at least one series ends with a blank line. */
  lemma {:induction false} SeriesTextEndsBlank(ss: seq<Series>)
    requires |ss| > 0
    ensures EndsWithBlankLine(SeriesText(ss))
    decreases |ss|
  {
    if ss[0].value.Some? {
      var line := SeriesLine(ss[0].labels, ss[0].value.value);
      var rest := SeriesText(ss[1..]);
      if |ss| == 1 {
        assert rest == "\n";
        assert (line + rest)[|line + rest| - 2..] == [line[|line| - 1]] + rest;
      } else {
        SeriesTextEndsBlank(ss[1..]);
        assert (line + rest)[|line + rest| - 2..] == rest[|rest| - 2..];
      }
    }
  }

  /** What one query's outcome adds below its section title: the fixed
      marker of a failure or of an empty result, else its series. */
  function AnswerText(a: Answer): (r: string)
    ensures a == Returned([]) ==> r == NoDataLine
    ensures a == Raised(ApiClientError) ==> r == QueryFailedLine
    ensures a == Raised(OtherError) ==> r == UnknownErrorLine
  {
    match a
    case Raised(ApiClientError) => QueryFailedLine
    case Raised(OtherError) => UnknownErrorLine
    case Returned(ss) => if |ss| == 0 then NoDataLine else SeriesText(ss)
  }

  /** Every outcome ends with a blank line, which separates its section
      from the next `###` title. */
  lemma AnswerEndsBlank(a: Answer)
    ensures EndsWithBlankLine(AnswerText(a))
  {
    if a.Returned? && |a.series| > 0 {
      SeriesTextEndsBlank(a.series);
    }
  }

  /** One query of the report together with what the backend answered. */
  datatype Executed = Executed(item: QueryItem, answer: Answer)

  /** The queries paired, in order, with the answers the backend gave. */
  function Pair(items: seq<QueryItem>, answers: seq<Answer>): seq<Executed>
    requires |answers| == |items|
  {
    seq(|items|, k requires 0 <= k < |items| => Executed(items[k], answers[k]))
  }

  /** The section of one query: its title line, then its outcome. */
  function Section(e: Executed, show: Json -> string): string
  {
    "### " + TitleText(e.item.title, show) + "\n" + AnswerText(e.answer)
  }

  /** The section texts of all queries, one per query, in query order. */
  function SectionList(runs: seq<Executed>, show: Json -> string): seq<string>
  {
    seq(|runs|, k requires 0 <= k < |runs| => Section(runs[k], show))
  }

  /** The sections of all queries, one after the other. */
  function Sections(runs: seq<Executed>, show: Json -> string): string
  {
    Concat(SectionList(runs, show))
  }

  /** Sections of consecutive query lists follow one another. */
  lemma SectionsAppend(a: seq<Executed>, b: seq<Executed>, show: Json -> string)
    ensures Sections(a + b, show) == Sections(a, show) + Sections(b, show)
  {
    var la, lb, lab := SectionList(a, show), SectionList(b, show), SectionList(a + b, show);
    assert |lab| == |la + lb|;
    forall k | 0 <= k < |lab|
      ensures lab[k] == (la + lb)[k]
    {
      if k < |a| {
        assert (a + b)[k] == a[k];
      } else {
        assert (a + b)[k] == b[k - |a|];
      }
    }
    assert lab == la + lb;
    ConcatAppend(la, lb);
  }

  /** The sections of the first `i + 1` queries extend those of the first
      `i` by the section of query `i`. */
  lemma SectionsSnoc(runs: seq<Executed>, show: Json -> string, i: nat)
    requires i < |runs|
    ensures Sections(runs[..i + 1], show) == Sections(runs[..i], show) + Section(runs[i], show)
  {
    assert runs[..i + 1] == runs[..i] + [runs[i]];
    SectionsAppend(runs[..i], [runs[i]], show);
    SectionsSingle(runs[i], show);
  }

  /** The sections of a single query are its section. */
  lemma SectionsSingle(e: Executed, show: Json -> string)
    ensures Sections([e], show) == Section(e, show)
  {
    assert SectionList([e], show) == [Section(e, show)];
    assert Concat([Section(e, show)]) == Section(e, show) + Concat([]);
  }

  /** The body of the `try` for one query: append its outcome to `text`. */
  method AppendAnswer(text: string, a: Answer) returns (out: string)
    ensures out == text + AnswerText(a)
  {
    match a {
      case Raised(ApiClientError) =>
        out := text + QueryFailedLine;
      case Raised(OtherError) =>
        out := text + UnknownErrorLine;
      case Returned(ss) =>
        if |ss| == 0 {
          out := text + NoDataLine;
          return;
        }
        out := text;
        var j := 0;
        while j < |ss|
          invariant 0 <= j <= |ss|
          invariant out + SeriesText(ss[j..]) == text + SeriesText(ss)
        {
          assert ss[j..][1..] == ss[j + 1..];
          match ss[j].value {
            case None =>
              out := out + UnknownErrorLine;
              return;
            case Some(v) =>
              out := out + SeriesLine(ss[j].labels, v);
              j := j + 1;
          }
        }
        out := out + "\n";
    }
  }

  /** One iteration of the loop over the queries: the title line, then the
      outcome of the query. */
  method AppendSection(text: string, e: Executed, show: Json -> string) returns (out: string)
    ensures out == text + Section(e, show)
  {
    var line := "### " + TitleText(e.item.title, show) + "\n";
    out := text + line;
    out := AppendAnswer(out, e.answer);
    AppendRegroup(text, line, AnswerText(e.answer));
  }

  /** The loop over the queries: append every query's section to `text`,
      in order. */
  method AppendSections(text: string, runs: seq<Executed>, show: Json -> string) returns (out: string)
    ensures out == text + Sections(runs, show)
  {
    out := text;
    var i := 0;
    while i < |runs|
      invariant 0 <= i <= |runs|
      invariant out == text + Sections(runs[..i], show)
    {
      SectionsSnoc(runs, show, i);
      AppendRegroup(text, Sections(runs[..i], show), Section(runs[i], show));
      out := AppendSection(out, runs[i], show);
      i := i + 1;
    }
    assert runs[..i] == runs;
  }

  /** The report for the executed queries: None when there are none, else
      the header followed by every query's section. */
  method BuildReport(uid: string, runs: seq<Executed>, show: Json -> string) returns (report: Option<string>)
    ensures report.None? <==> |runs| == 0
    ensures report.Some? ==> report.value == Header(uid) + Sections(runs, show)
  {
    if |runs| == 0 {
      return None;
    }
    var text := AppendSections(Header(uid), runs, show);
    return Some(text);
  }

  /** A query's outcome only affects its own section: the report is the
      sections before query `i`, then the section of query `i` alone, then
      the sections after it, whatever each outcome was. */
  lemma SectionIsolated(runs: seq<Executed>, show: Json -> string, i: nat)
    requires i < |runs|
    ensures Sections(runs, show)
            == Sections(runs[..i], show) + Section(runs[i], show) + Sections(runs[i + 1..], show)
  {
    var xs, e, ys := runs[..i], runs[i], runs[i + 1..];
    assert runs == xs + ([e] + ys);
    SectionsAppend(xs, [e] + ys, show);
    SectionsAppend([e], ys, show);
    SectionsSingle(e, show);
    assert Sections(xs, show) + Section(e, show) + Sections(ys, show)
        == Sections(xs, show) + (Section(e, show) + Sections(ys, show));
  }

  /** `get_metrics()`: extract the queries, give up with None when there are
      none, else build the report. An exception raised by the walk is not
      caught and ends the run. */
  method GetMetrics(cfg: Config, response: Response, answers: seq<Answer>, show: Json -> string)
    returns (r: Result<Option<string>, PyError>)
    requires GetAllQueries(cfg, cfg.dashboardUid, response).Ok? ==>
               |answers| == |GetAllQueries(cfg, cfg.dashboardUid, response).value|
    ensures r.Err? <==> GetAllQueries(cfg, cfg.dashboardUid, response).Err?
    ensures r == Ok(None) <==> GetAllQueries(cfg, cfg.dashboardUid, response) == Ok([])
    ensures r.Ok? && r.value.Some? ==>
              && Present(cfg.dashboardUid)
              && r.value.value == Header(Format(cfg.dashboardUid))
                                  + Sections(Pair(GetAllQueries(cfg, cfg.dashboardUid, response).value, answers), show)
  {
    var found := GetAllQueries(cfg, cfg.dashboardUid, response);
    match found {
      case Err(e) =>
        return Err(e);
      case Ok(items) =>
        var report := BuildReport(Format(cfg.dashboardUid), Pair(items, answers), show);
        return Ok(report);
    }
  }
}

=== FILE: substitution.dfy ===
/** Python's `str.replace` and the Grafana template-variable substitution
    applied to every extracted query (reporter.py:89). */
module Substitution {
  import opened Text

  /** Grafana's dashboard-range variable and the literal it becomes. */
  const RangeToken := "$__range"
  const RangeValue := "24h"

  /** Grafana's automatic step variable and the literal it becomes. */
  const IntervalToken := "$__interval"
  const IntervalValue := "5m"

  /** `s.replace(pat, rep)` for a non-empty pattern: the string is scanned left
      to right and each leftmost occurrence is replaced; scanning resumes
      after the replaced occurrence, so occurrences never overlap. */
  function Replace(s: string, pat: string, rep: string): string
    requires pat != ""
    decreases |s|
  {
    if |s| < |pat| then s
    else if s[..|pat|] == pat then rep + Replace(s[|pat|..], pat, rep)
    else [s[0]] + Replace(s[1..], pat, rep)
  }

  /** No character of `a` occurs in `b`. */
  predicate NoCommonChar(a: string, b: string)
  {
    forall i | 0 <= i < |a| :: a[i] !in b
  }

  /** The first character of `pat` occurs nowhere else in it, so two
      occurrences of `pat` can never overlap. */
  predicate HeadUnique(pat: string)
  {
    |pat| > 0 && forall k | 0 < k < |pat| :: pat[k] != pat[0]
  }

  /** A string without the pattern comes back unchanged. */
  lemma {:induction false} ReplaceUnchanged(s: string, pat: string, rep: string)
    requires pat != ""
    requires !Contains(s, pat)
    ensures Replace(s, pat, rep) == s
    decreases |s|
  {
    if |s| < |pat| {
    } else if s[..|pat|] == pat {
      assert OccursAt(s, pat, 0);
    } else {
      SuffixLacks(s, 1, pat);
      ReplaceUnchanged(s[1..], pat, rep);
      assert [s[0]] + s[1..] == s;
    }
  }

  /** Where the output shows no character of `rep`, it still shows the input:
      an output prefix free of replacement characters is an input prefix. */
  lemma {:induction false} ReplacePrefix(t: string, pat: string, rep: string, k: nat)
    requires pat != "" && rep != ""
    requires k <= |Replace(t, pat, rep)|
    requires forall j | 0 <= j < k :: Replace(t, pat, rep)[j] !in rep
    ensures k <= |t| && Replace(t, pat, rep)[..k] == t[..k]
    decreases |t|
  {
    var r := Replace(t, pat, rep);
    if |t| < |pat| {
    } else if t[..|pat|] == pat {
      assert r[0] == rep[0];
    } else if k > 0 {
      var r' := Replace(t[1..], pat, rep);
      assert r == [t[0]] + r';
      forall j | 0 <= j < k - 1
        ensures r'[j] !in rep
      {
        assert r'[j] == r[j + 1];
      }
      ReplacePrefix(t[1..], pat, rep, k - 1);
      assert r[..k] == [t[0]] + r'[..k - 1];
      assert t[..k] == [t[0]] + t[1..][..k - 1];
    }
  }

  /** A non-empty text free of `q`'s characters cannot start or host an
      occurrence of `q`, so placing it in front of a `q`-free text keeps it
      free of `q`. */
  lemma AvoidsBehindRep(rep: string, r: string, q: string)
    requires rep != "" && q != ""
    requires NoCommonChar(rep, q)
    requires !Contains(r, q)
    ensures !Contains(rep + r, q)
  {
    var w := rep + r;
    forall i | 0 <= i <= |w| && i + |q| <= |w|
      ensures !OccursAt(w, q, i)
    {
      if i < |rep| {
        assert w[i..i + |q|][0] == rep[i];
      } else {
        assert w[i..i + |q|] == r[i - |rep|..i - |rep| + |q|];
        assert !OccursAt(r, q, i - |rep|);
      }
    }
  }

  /** An occurrence of `q` at the very start of the output is already at the
      start of the input when `q` shares no character with `rep`. */
  lemma LeadingOccurrence(s: string, pat: string, rep: string, q: string)
    requires pat != "" && rep != "" && q != ""
    requires NoCommonChar(rep, q)
    ensures OccursAt(Replace(s, pat, rep), q, 0) ==> OccursAt(s, q, 0)
  {
    var r := Replace(s, pat, rep);
    if OccursAt(r, q, 0) {
      forall j | 0 <= j < |q|
        ensures r[j] !in rep
      {
        assert r[j] == q[j];
      }
      ReplacePrefix(s, pat, rep, |q|);
    }
  }

  /** Replacing `pat` by a non-empty `rep` that shares no character with `q`
      leaves no occurrence of `q`, provided either `q` is the pattern itself
      or `q` did not occur in the input to begin with: the replacement can
      neither leave `q` behind nor create it by joining the text around it. */
  lemma {:induction false} ReplaceAvoids(s: string, pat: string, rep: string, q: string)
    requires pat != "" && rep != "" && q != ""
    requires NoCommonChar(rep, q)
    requires q == pat || !Contains(s, q)
    ensures !Contains(Replace(s, pat, rep), q)
    decreases |s|
  {
    if |s| < |pat| {
    } else if s[..|pat|] == pat {
      var rest := s[|pat|..];
      if q != pat {
        SuffixLacks(s, |pat|, q);
      }
      ReplaceAvoids(rest, pat, rep, q);
      AvoidsBehindRep(rep, Replace(rest, pat, rep), q);
    } else {
      var t := s[1..];
      if q != pat {
        SuffixLacks(s, 1, q);
      }
      ReplaceAvoids(t, pat, rep, q);
      var r' := Replace(t, pat, rep);
      assert Replace(s, pat, rep) == [s[0]] + r';
      LeadingOccurrence(s, pat, rep, q);
      ConsAvoids(s[0], r', q);
    }
  }

  /** Putting one character in front of a `q`-free text creates no
      occurrence of `q` other than one at the very start. */
  lemma ConsAvoids(c: char, r: string, q: string)
    requires !Contains(r, q)
    requires !OccursAt([c] + r, q, 0)
    ensures !Contains([c] + r, q)
  {
    var w := [c] + r;
    forall i | 0 < i <= |w| && i + |q| <= |w|
      ensures !OccursAt(w, q, i)
    {
      assert w[i..i + |q|] == r[i - 1..i - 1 + |q|];
      assert !OccursAt(r, q, i - 1);
    }
  }

  /** When `p` lacks a head-unique `pat`, no occurrence of `pat` starts
      inside `p` even if it would run on into a following `pat`. */
  lemma NoEarlyMatch(p: string, pat: string, tail: string)
    requires HeadUnique(pat)
    requires !Contains(p, pat)
    requires |p| > 0
    ensures (p + pat + tail)[..|pat|] != pat
  {
    var s := p + pat + tail;
    if |p| >= |pat| {
      assert s[..|pat|] == p[..|pat|];
      assert !OccursAt(p, pat, 0);
    } else {
      assert s[|p|] == pat[0];
      assert pat[|p|] != pat[0];
    }
  }

  /** The text in front of the first occurrence of a head-unique pattern is
      copied through unchanged, and that occurrence is the one replaced. */
  lemma {:induction false} ReplaceAcross(p: string, pat: string, rep: string, tail: string)
    requires HeadUnique(pat)
    requires !Contains(p, pat)
    ensures Replace(p + pat + tail, pat, rep) == p + rep + Replace(tail, pat, rep)
    decreases |p|
  {
    var s := p + pat + tail;
    if |p| == 0 {
      assert s == pat + tail;
      assert s[..|pat|] == pat;
      assert s[|pat|..] == tail;
    } else {
      NoEarlyMatch(p, pat, tail);
      SuffixLacks(p, 1, pat);
      ReplaceAcross(p[1..], pat, rep, tail);
      assert s[1..] == p[1..] + pat + tail;
      calc {
        Replace(s, pat, rep);
        [s[0]] + Replace(s[1..], pat, rep);
        [p[0]] + (p[1..] + rep + Replace(tail, pat, rep));
        { assert [p[0]] + p[1..] == p; }
        p + rep + Replace(tail, pat, rep);
      }
    }
  }

  /** Every character outside the placeholders survives: a text that is the
      pieces `parts` separated by a head-unique pattern becomes the same
      pieces, in the same order, separated by the replacement. */
  lemma {:induction false} ReplaceJoin(parts: seq<string>, pat: string, rep: string)
    requires HeadUnique(pat)
    requires forall i | 0 <= i < |parts| :: !Contains(parts[i], pat)
    ensures Replace(Join(pat, parts), pat, rep) == Join(rep, parts)
  {
    if |parts| == 0 {
    } else if |parts| == 1 {
      ReplaceUnchanged(parts[0], pat, rep);
    } else {
      ReplaceAcross(parts[0], pat, rep, Join(pat, parts[1..]));
      assert Join(pat, parts) == parts[0] + pat + Join(pat, parts[1..]);
      ReplaceJoin(parts[1..], pat, rep);
    }
  }

  lemma PlaceholderAlphabets()
    ensures NoCommonChar(RangeValue, RangeToken)
    ensures NoCommonChar(RangeValue, IntervalToken)
    ensures NoCommonChar(IntervalValue, RangeToken)
    ensures NoCommonChar(IntervalValue, IntervalToken)
    ensures HeadUnique(RangeToken) && HeadUnique(IntervalToken)
  {
  }

  /** `query.replace('$__range', '24h').replace('$__interval', '5m')`:
      neither placeholder survives in the result. */
  function Substitute(query: string): (r: string)
    ensures !Contains(r, RangeToken) && !Contains(r, IntervalToken)
  {
    PlaceholderAlphabets();
    ReplaceAvoids(query, RangeToken, RangeValue, RangeToken);
    var once := Replace(query, RangeToken, RangeValue);
    ReplaceAvoids(once, IntervalToken, IntervalValue, RangeToken);
    ReplaceAvoids(once, IntervalToken, IntervalValue, IntervalToken);
    Replace(once, IntervalToken, IntervalValue)
  }

  /** A query that uses neither placeholder is passed through as written. */
  lemma SubstituteUnchanged(query: string)
    requires !Contains(query, RangeToken) && !Contains(query, IntervalToken)
    ensures Substitute(query) == query
  {
    ReplaceUnchanged(query, RangeToken, RangeValue);
    ReplaceUnchanged(query, IntervalToken, IntervalValue);
  }

  /** Gluing two texts that lack `q` around a non-empty piece that shares no
      character with `q` cannot create `q`. */
  lemma JoinAvoids(x: string, m: string, y: string, q: string)
    requires q != "" && m != ""
    requires NoCommonChar(m, q)
    requires !Contains(x, q) && !Contains(y, q)
    ensures !Contains(x + m + y, q)
  {
    var s := x + m + y;
    forall i | 0 <= i <= |s| && i + |q| <= |s|
      ensures !OccursAt(s, q, i)
    {
      if i + |q| <= |x| {
        assert s[i..i + |q|] == x[i..i + |q|];
        assert !OccursAt(x, q, i);
      } else if i >= |x| + |m| {
        var j := i - |x| - |m|;
        assert s[i..i + |q|] == y[j..j + |q|];
        assert !OccursAt(y, q, j);
      } else {
        var p := if i < |x| then |x| else i;
        assert s[p] == m[p - |x|];
        assert s[p] == s[i..i + |q|][p - i];
      }
    }
  }

  /** The interval placeholder cannot host or straddle a range placeholder. */
  lemma IntervalHidesNoRange(a: string, b: string)
    requires !Contains(a, RangeToken) && !Contains(b, RangeToken)
    ensures !Contains(a + IntervalToken + b, RangeToken)
  {
    var s := a + IntervalToken + b;
    var n := |RangeToken|;
    forall i | 0 <= i <= |s| && i + n <= |s|
      ensures !OccursAt(s, RangeToken, i)
    {
      var w := s[i..i + n];
      if i + n <= |a| {
        assert w == a[i..i + n];
        assert !OccursAt(a, RangeToken, i);
      } else if i >= |a| + |IntervalToken| {
        var j := i - |a| - |IntervalToken|;
        assert w == b[j..j + n];
        assert !OccursAt(b, RangeToken, j);
      } else if i < |a| {
        assert s[|a|] == '$';
        assert w[|a| - i] == s[|a|];
      } else if i == |a| {
        assert w[3] == s[i + 3] == 'i';
      } else {
        assert w[0] == s[i] == IntervalToken[i - |a|];
      }
    }
  }

  /** Both placeholders are replaced in place and everything else is kept:
      `a$__range b$__interval c`, with `a`, `b` and `c` free of placeholders,
      becomes `a24h b5m c`. */
  lemma SubstituteBoth(a: string, b: string, c: string)
    requires !Contains(a, RangeToken) && !Contains(a, IntervalToken)
    requires !Contains(b, RangeToken) && !Contains(b, IntervalToken)
    requires !Contains(c, RangeToken) && !Contains(c, IntervalToken)
    ensures Substitute(a + RangeToken + b + IntervalToken + c) == a + RangeValue + b + IntervalValue + c
  {
    PlaceholderAlphabets();
    var tail := b + IntervalToken + c;
    assert a + RangeToken + b + IntervalToken + c == a + RangeToken + tail;
    ReplaceAcross(a, RangeToken, RangeValue, tail);
    IntervalHidesNoRange(b, c);
    ReplaceUnchanged(tail, RangeToken, RangeValue);
    assert a + RangeValue + tail == (a + RangeValue + b) + IntervalToken + c;
    JoinAvoids(a, RangeValue, b, IntervalToken);
    ReplaceAcross(a + RangeValue + b, IntervalToken, IntervalValue, c);
    ReplaceUnchanged(c, IntervalToken, IntervalValue);
  }

  /** The same with the placeholders the other way round:
      `a$__interval b$__range c`, with `a`, `b` and `c` free of placeholders,
      becomes `a5m b24h c`. */
  lemma SubstituteBothReversed(a: string, b: string, c: string)
    requires !Contains(a, RangeToken) && !Contains(a, IntervalToken)
    requires !Contains(b, RangeToken) && !Contains(b, IntervalToken)
    requires !Contains(c, RangeToken) && !Contains(c, IntervalToken)
    ensures Substitute(a + IntervalToken + b + RangeToken + c) == a + IntervalValue + b + RangeValue + c
  {
    PlaceholderAlphabets();
    IntervalHidesNoRange(a, b);
    ReplaceAcross(a + IntervalToken + b, RangeToken, RangeValue, c);
    ReplaceUnchanged(c, RangeToken, RangeValue);
    var tail := b + RangeValue + c;
    assert a + IntervalToken + b + RangeValue + c == a + IntervalToken + tail;
    JoinAvoids(b, RangeValue, c, IntervalToken);
    ReplaceAcross(a, IntervalToken, IntervalValue, tail);
    ReplaceUnchanged(tail, IntervalToken, IntervalValue);
    assert a + IntervalValue + tail == a + IntervalValue + b + RangeValue + c;
  }

  /** The example query `sum(rate($__range))` becomes `sum(rate(24h))`. */
  lemma SubstituteExample()
    ensures Substitute("sum(rate($__range))") == "sum(rate(24h))"
  {
    var head, tail := "sum(rate(", "))";
    PlaceholderAlphabets();
    MissingHeadNotContained(head, RangeToken);
    MissingHeadNotContained(tail, RangeToken);
    MissingHeadNotContained(head, IntervalToken);
    MissingHeadNotContained(tail, IntervalToken);
    SubstituteOne(head, tail);
    assert head + RangeToken + tail == "sum(rate($__range))";
    assert head + RangeValue + tail == "sum(rate(24h))";
  }

  /** A single range placeholder between placeholder-free texts becomes `24h`. */
  lemma SubstituteOne(a: string, b: string)
    requires !Contains(a, RangeToken) && !Contains(a, IntervalToken)
    requires !Contains(b, RangeToken) && !Contains(b, IntervalToken)
    ensures Substitute(a + RangeToken + b) == a + RangeValue + b
  {
    PlaceholderAlphabets();
    ReplaceAcross(a, RangeToken, RangeValue, b);
    ReplaceUnchanged(b, RangeToken, RangeValue);
    JoinAvoids(a, RangeValue, b, IntervalToken);
    ReplaceUnchanged(a + RangeValue + b, IntervalToken, IntervalValue);
  }

  /** Where the pattern does not start, the scan copies one character. */
  lemma ReplaceCopies(s: string, pat: string, rep: string)
    requires pat != "" && |s| > 0
    requires !(|pat| <= |s| && s[..|pat|] == pat)
    ensures Replace(s, pat, rep) == [s[0]] + Replace(s[1..], pat, rep)
  {
    if |s| < |pat| {
      assert Replace(s[1..], pat, rep) == s[1..];
      assert [s[0]] + s[1..] == s;
    }
  }

  /** Where the pattern starts, the scan writes the replacement and skips it. */
  lemma ReplaceMatches(pat: string, z: string, rep: string)
    requires pat != ""
    ensures Replace(pat + z, pat, rep) == rep + Replace(z, pat, rep)
  {
    var w := pat + z;
    assert w[..|pat|] == pat && w[|pat|..] == z;
  }

  /** A separator sharing no character with the pattern passes through
      the scan untouched: no occurrence can start inside it. */
  lemma {:induction false} ReplaceBehindSep(sep: string, y: string, pat: string, rep: string)
    requires pat != "" && sep != ""
    requires NoCommonChar(sep, pat)
    ensures Replace(sep + y, pat, rep) == sep + Replace(y, pat, rep)
    decreases |sep|
  {
    var c, rest := sep[0], sep[1..];
    var w := [c] + (rest + y);
    assert sep + y == w by {
      assert sep == [c] + rest;
    }
    assert c !in pat;
    if |pat| <= |w| {
      assert w[..|pat|][0] == c;
    }
    ReplaceCopies(w, pat, rep);
    assert w[1..] == rest + y;
    if |rest| > 0 {
      assert NoCommonChar(rest, pat) by {
        forall i | 0 <= i < |rest|
          ensures rest[i] !in pat
        {
          assert rest[i] == sep[i + 1];
        }
      }
      ReplaceBehindSep(rest, y, pat, rep);
      AppendRegroup([c], rest, Replace(y, pat, rep));
      assert [c] + rest == sep;
    } else {
      assert sep == [c] && rest + y == y;
    }
  }

  /** No occurrence of the pattern can span a separator that shares no
      character with it, so the two sides are replaced independently. */
  lemma {:induction false} ReplaceSplits(x: string, sep: string, y: string, pat: string, rep: string)
    requires pat != "" && sep != ""
    requires NoCommonChar(sep, pat)
    ensures Replace(x + sep + y, pat, rep) == Replace(x, pat, rep) + sep + Replace(y, pat, rep)
    decreases |x|, 1
  {
    var w := x + sep + y;
    if |x| == 0 {
      assert w == sep + y;
      ReplaceBehindSep(sep, y, pat, rep);
    } else if |pat| <= |x| && x[..|pat|] == pat {
      var z := x[|pat|..];
      assert x == pat + z;
      assert x + sep + y == pat + (z + sep + y);
      SplitsAfterMatch(z, sep, y, pat, rep);
      ReplaceMatches(pat, z, rep);
    } else {
      var c, u := x[0], x[1..];
      assert x == [c] + u;
      assert x + sep + y == [c] + (u + sep + y);
      SplitsAfterCopy(c, u, sep, y, pat, rep);
      ReplaceCopies(x, pat, rep);
    }
  }

  /** The step of ReplaceSplits where `x` is the pattern followed by `z`. */
  lemma {:induction false} SplitsAfterMatch(z: string, sep: string, y: string, pat: string, rep: string)
    requires pat != "" && sep != ""
    requires NoCommonChar(sep, pat)
    ensures Replace(pat + (z + sep + y), pat, rep) == rep + Replace(z, pat, rep) + sep + Replace(y, pat, rep)
    decreases |pat + z|, 0
  {
    ReplaceSplits(z, sep, y, pat, rep);
    ReplaceMatches(pat, z + sep + y, rep);
    AppendRegroup(rep, Replace(z, pat, rep), sep + Replace(y, pat, rep));
    AppendRegroup(Replace(z, pat, rep), sep, Replace(y, pat, rep));
    AppendRegroup(rep + Replace(z, pat, rep), sep, Replace(y, pat, rep));
  }

  /** When `x` does not start with the pattern, neither does `x + sep + y`:
      a match would have to reach into the separator. */
  lemma NoMatchBeforeSep(x: string, sep: string, y: string, pat: string)
    requires pat != "" && sep != ""
    requires NoCommonChar(sep, pat)
    requires !(|pat| <= |x| && x[..|pat|] == pat)
    ensures var w := x + sep + y; !(|pat| <= |w| && w[..|pat|] == pat)
  {
    var w := x + sep + y;
    if |pat| <= |w| {
      if |pat| <= |x| {
        assert w[..|pat|] == x[..|pat|];
      } else {
        assert w[..|pat|][|x|] == sep[0];
        assert sep[0] !in pat;
      }
    }
  }

  /** The step of ReplaceSplits where `x` is the character `c`, at which
      the pattern does not start, followed by `u`. */
  lemma {:induction false} SplitsAfterCopy(c: char, u: string, sep: string, y: string, pat: string, rep: string)
    requires pat != "" && sep != ""
    requires NoCommonChar(sep, pat)
    requires !(|pat| <= |[c] + u| && ([c] + u)[..|pat|] == pat)
    ensures Replace([c] + (u + sep + y), pat, rep) == [c] + Replace(u, pat, rep) + sep + Replace(y, pat, rep)
    decreases |[c] + u|, 0
  {
    NoMatchBeforeSep([c] + u, sep, y, pat);
    assert [c] + u + sep + y == [c] + (u + sep + y);
    ReplaceCopies([c] + (u + sep + y), pat, rep);
    assert ([c] + (u + sep + y))[1..] == u + sep + y;
    ReplaceSplits(u, sep, y, pat, rep);
    AppendRegroup([c], Replace(u, pat, rep), sep + Replace(y, pat, rep));
    AppendRegroup(Replace(u, pat, rep), sep, Replace(y, pat, rep));
    AppendRegroup([c] + Replace(u, pat, rep), sep, Replace(y, pat, rep));
  }

  /** Replacing in a text joined by such a separator replaces in each piece. */
  lemma {:induction false} ReplaceOverJoin(sep: string, parts: seq<string>, pat: string, rep: string)
    requires pat != "" && sep != ""
    requires NoCommonChar(sep, pat)
    ensures Replace(Join(sep, parts), pat, rep)
            == Join(sep, seq(|parts|, i requires 0 <= i < |parts| => Replace(parts[i], pat, rep)))
    decreases |parts|
  {
    var mapped := seq(|parts|, i requires 0 <= i < |parts| => Replace(parts[i], pat, rep));
    if |parts| == 0 {
      assert Replace("", pat, rep) == "";
    } else if |parts| == 1 {
    } else {
      ReplaceSplits(parts[0], sep, Join(sep, parts[1..]), pat, rep);
      ReplaceOverJoin(sep, parts[1..], pat, rep);
      assert mapped[1..] == seq(|parts[1..]|, i requires 0 <= i < |parts[1..]| => Replace(parts[1..][i], pat, rep));
    }
  }

  /** The whole substitution of any query: a query is pieces without
      `$__range` separated by `$__range`; it becomes the same pieces, each
      with its `$__interval`s replaced by `5m`, separated by `24h`. The
      `24h` written by the first replacement never takes part in a match
      of the second. */
  lemma SubstituteJoin(parts: seq<string>)
    requires forall i | 0 <= i < |parts| :: !Contains(parts[i], RangeToken)
    ensures Substitute(Join(RangeToken, parts))
            == Join(RangeValue, seq(|parts|, i requires 0 <= i < |parts| =>
                                     Replace(parts[i], IntervalToken, IntervalValue)))
  {
    PlaceholderAlphabets();
    ReplaceJoin(parts, RangeToken, RangeValue);
    ReplaceOverJoin(RangeValue, parts, IntervalToken, IntervalValue);
  }

  /** `s.split(pat)` for a head-unique pattern: the pieces between the
      occurrences the scan finds. There is always at least one piece, no
      piece contains the pattern, and joining them by the pattern gives `s`
      back. */
  function Split(s: string, pat: string): (r: seq<string>)
    requires HeadUnique(pat)
    ensures |r| > 0
    ensures forall i | 0 <= i < |r| :: !Contains(r[i], pat)
    ensures Join(pat, r) == s
    decreases |s|
  {
    if |s| < |pat| then
      assert !Contains(s, pat);
      [s]
    else if s[..|pat|] == pat then
      var rest := Split(s[|pat|..], pat);
      assert s == pat + s[|pat|..];
      SplitAtMatch(s[|pat|..], pat, rest);
      [""] + rest
    else
      var rest := Split(s[1..], pat);
      assert s == [s[0]] + s[1..];
      SplitAtCopy(s[0], s[1..], pat, rest);
      [[s[0]] + rest[0]] + rest[1..]
  }

  /** The step of Split where the text is the pattern followed by `z`: an
      empty piece comes first. */
  lemma SplitAtMatch(z: string, pat: string, rest: seq<string>)
    requires HeadUnique(pat)
    requires |rest| > 0 && Join(pat, rest) == z
    requires forall i | 0 <= i < |rest| :: !Contains(rest[i], pat)
    ensures forall i | 0 <= i < |[""] + rest| :: !Contains(([""] + rest)[i], pat)
    ensures Join(pat, [""] + rest) == pat + z
  {
    var r := [""] + rest;
    JoinFirst(pat, r);
    assert r[0] == "" && r[1..] == rest;
    assert "" + (pat + z) == pat + z;
    assert !Contains("", pat);
    forall i | 0 < i < |r|
      ensures !Contains(r[i], pat)
    {
      assert r[i] == rest[i - 1];
    }
  }

  /** The step of Split where the pattern does not start `[c] + u`: `c`
      joins the first piece of the rest. */
  lemma SplitAtCopy(c: char, u: string, pat: string, rest: seq<string>)
    requires HeadUnique(pat)
    requires !(|pat| <= |[c] + u| && ([c] + u)[..|pat|] == pat)
    requires |rest| > 0 && Join(pat, rest) == u
    requires forall i | 0 <= i < |rest| :: !Contains(rest[i], pat)
    ensures var r := [[c] + rest[0]] + rest[1..];
            && (forall i | 0 <= i < |r| :: !Contains(r[i], pat))
            && Join(pat, r) == [c] + u
  {
    var head := [c] + rest[0];
    var r := [head] + rest[1..];
    var more := if |rest| > 1 then pat + Join(pat, rest[1..]) else "";
    JoinFirst(pat, rest);
    JoinFirst(pat, r);
    assert r[1..] == rest[1..];
    AppendRegroup([c], rest[0], more);
    HeadNotContained(c, u, rest[0], more, pat);
    forall i | 0 <= i < |r|
      ensures !Contains(r[i], pat)
    {
      if i > 0 {
        assert r[i] == rest[i];
      }
    }
  }

  /** A prefix `[c] + p` of a text the pattern does not start, with `p`
      free of the pattern, is free of the pattern. */
  lemma HeadNotContained(c: char, u: string, p: string, more: string, pat: string)
    requires u == p + more
    requires !(|pat| <= |[c] + u| && ([c] + u)[..|pat|] == pat)
    requires !Contains(p, pat)
    ensures !Contains([c] + p, pat)
  {
    var head := [c] + p;
    if |pat| <= |head| {
      assert [c] + u == head + more;
      assert head[..|pat|] == ([c] + u)[..|pat|];
    }
    ConsAvoids(c, p, pat);
  }

  /** Every query, placeholders anywhere: split at `$__range` and each piece
      at `$__interval`, the result is the pieces of each piece joined by
      `5m`, those joined by `24h`. Nothing but the placeholders changes. */
  lemma SubstituteAll(query: string)
    ensures var parts := Split(query, RangeToken);
            Substitute(query)
            == Join(RangeValue, seq(|parts|, i requires 0 <= i < |parts| =>
                                     Join(IntervalValue, Split(parts[i], IntervalToken))))
  {
    PlaceholderAlphabets();
    var parts := Split(query, RangeToken);
    SubstituteJoin(parts);
    var replaced := seq(|parts|, i requires 0 <= i < |parts| => Replace(parts[i], IntervalToken, IntervalValue));
    var pieces := seq(|parts|, i requires 0 <= i < |parts| => Join(IntervalValue, Split(parts[i], IntervalToken)));
    forall i | 0 <= i < |parts|
      ensures replaced[i] == pieces[i]
    {
      ReplaceJoin(Split(parts[i], IntervalToken), IntervalToken, IntervalValue);
    }
    assert replaced == pieces;
  }
}

=== FILE: text.dfy ===
/** String helpers: Python's `"".join`, `sep.join` and substring search. */
module Text {

  /** `"".join(parts)`. */
  function Concat(parts: seq<string>): string
  {
    if |parts| == 0 then "" else parts[0] + Concat(parts[1..])
  }

  /** Joining two lists of pieces is joining each and gluing the results. */
  lemma {:induction false} ConcatAppend(a: seq<string>, b: seq<string>)
    ensures Concat(a + b) == Concat(a) + Concat(b)
  {
    if |a| == 0 {
      assert a + b == b;
    } else {
      assert (a + b)[1..] == a[1..] + b;
      ConcatAppend(a[1..], b);
    }
  }

  /** Proof hint, modelling nothing: gluing regroups. Loops that append
      piece by piece call it so that their step is checked in a small
      context of its own. */
  lemma AppendRegroup(a: string, b: string, c: string)
    ensures a + b + c == a + (b + c)
  {
  }

  /** `sep.join(parts)`. */
  function Join(sep: string, parts: seq<string>): string
  {
    if |parts| == 0 then ""
    else if |parts| == 1 then parts[0]
    else parts[0] + sep + Join(sep, parts[1..])
  }

  /** The first piece, then the separator and the rest when there is one. */
  lemma JoinFirst(sep: string, parts: seq<string>)
    requires |parts| > 0
    ensures Join(sep, parts) == parts[0] + (if |parts| > 1 then sep + Join(sep, parts[1..]) else "")
  {
    if |parts| > 1 {
      AppendRegroup(parts[0], sep, Join(sep, parts[1..]));
    } else {
      assert parts[0] + "" == parts[0];
    }
  }

  /** Joining two non-empty lists puts exactly one separator between them. */
  lemma {:induction false} JoinAppend(sep: string, a: seq<string>, b: seq<string>)
    requires |a| > 0 && |b| > 0
    ensures Join(sep, a + b) == Join(sep, a) + sep + Join(sep, b)
  {
    if |a| == 1 {
      assert (a + b)[1..] == b;
    } else {
      assert (a + b)[1..] == a[1..] + b;
      JoinAppend(sep, a[1..], b);
    }
  }

  /** The first piece is a prefix of the joined string. */
  lemma JoinStartsWithFirst(sep: string, parts: seq<string>)
    requires |parts| > 0
    ensures |parts[0]| <= |Join(sep, parts)|
    ensures Join(sep, parts)[..|parts[0]|] == parts[0]
  {
  }

  /** `pat` occurs in `s` starting at index `i`. */
  predicate OccursAt(s: string, pat: string, i: int)
  {
    0 <= i && i + |pat| <= |s| && s[i..i + |pat|] == pat
  }

  /** Python's `pat in s`. */
  predicate Contains(s: string, pat: string)
  {
    exists i | 0 <= i <= |s| :: OccursAt(s, pat, i)
  }

  /** A string that lacks `pat` has no suffix containing it. */
  lemma SuffixLacks(s: string, n: nat, pat: string)
    requires n <= |s|
    requires !Contains(s, pat)
    ensures !Contains(s[n..], pat)
  {
    forall i | 0 <= i <= |s[n..]| && i + |pat| <= |s[n..]|
      ensures !OccursAt(s[n..], pat, i)
    {
      assert s[n + i..n + i + |pat|] == s[n..][i..i + |pat|];
      assert !OccursAt(s, pat, n + i);
    }
  }

  /** A string that lacks the first character of `pat` cannot contain `pat`. */
  lemma MissingHeadNotContained(s: string, pat: string)
    requires |pat| > 0 && pat[0] !in s
    ensures !Contains(s, pat)
  {
    forall i | 0 <= i < |s|
      ensures !OccursAt(s, pat, i)
    {
      assert s[i] != pat[0];
    }
  }
}
